=== FILE: README.md ===
# queuetify server core — a Dafny model

This project models the sequential core of the queuetify server, a service in
which several participants share one music-playback session.

- **Controller hub** (`controller.dfy`). It keeps two registries: session id →
  set of connection ids, and connection id → delivery handle. It handles
  Connect and Disconnect, delivers search results to one connection, and hands
  searches to the session agent.
- **WebSocket connection actors.** `ws_protocol.dfy` holds what both actors
  share: the liveness heartbeat with its strict 10-second timeout, start-up
  Connect, shut-down Disconnect, and control frames. `ws_connection.dfy`
  models the controller package's actor, which decodes a typed `Request`.
  `legacy_ws_connection.dfy` models the older actor, which forwards raw text.
  `connection_lifecycle.dfy` replays a connection's messages into the hub.
- **Search projection** (`track_search.dfy`). A Player search page becomes a
  list of `TrackInfo`. The session agent (`session_agent.dfy`) and the HTTP
  search route (`search_api.dfy`) both use it.
- **Store** (`db.dfy`). An abstract `sessions` table and a `queued_tracks`
  pair set.
- **Configuration and cookie session** (`configuration.dfy`,
  `session_state.dfy`).

Every actor handler is a pure function. It takes the actor's state and one
event, and returns the new state plus the list of messages the actor sends.
Clock readings are natural numbers in nanoseconds. These are passed in as
function parameters: JSON decoding of a client `Request`, `TrackId::from_str`,
JSON encoding of a pushed `Response`, and the parsing of a stored Player
token. The Player's answer to a search is an input value.

`WsMessage` has one definition, `WsMessage(String)` in
`controller/messages.rs`. Yet `controller.rs` builds it from a `Response`, and
the controller package's connection serialises its content as if it held a
`Response`. The model follows those uses: `Messages.WsMessage` carries a
`Response`, and the legacy actor pushes a raw string. `Search`, `Queue`,
`SearchComplete`, `Response` and `SearchResultPayload` are missing from `messages.rs`. They are
declared from the fields the controller and the connection use.

The hub only registers connections, delivers to one connection, and
forwards searches. The agent only answers searches. Queueing in the hub and
broadcasts to a whole session are commented out in the code, and so they are
no-ops here (see "## Left out").

The store model assumes that `sessions.id` is the table's primary key, so a
second `new_session` with the same id fails. The schema is not part of this
model. The `TrackId` string form is the `spotify:track:<id>` URI.

## Model

| member | source | states |
|---|---|---|
| Controller.OnConnect | server/src/controller/controller.rs:109-127 | The connection joins its session's member set, and the set is created if absent. The connection's handle is recorded. Every other session's members and every other handle are unchanged. |
| Controller.OnDisconnect | server/src/controller/controller.rs:84-101 | An unregistered connection id changes nothing. A registered one loses its handle. Its session keeps the other members when it had more than one; otherwise the session entry is removed. No other session changes. |
| Controller.SendMessage | server/src/controller/controller.rs:43-49 | At most one push is produced. It exists exactly when the target id is registered, and it goes to that id's handle with the response unchanged. |
| Controller.Handle | server/src/controller/controller.rs:137-169 | Connect changes the registries exactly as `Handler<Connect>` does and Disconnect exactly as `Handler<Disconnect>` does; no other message changes them. Every push goes to a registered handle. A Search is forwarded unchanged to the agent as the only effect while the agent channel is open, and sends nothing once it is closed. SearchComplete becomes a `SearchResult` push to its own connection id only. Connect, Disconnect, ClientActorMessage and Queue send nothing. |
| Controller.New | server/src/controller/controller.rs:35-42 | A new hub has no registered connection and no session entry. |
| Controller.NewWellFormed | server/src/controller/controller.rs:35-42 | The new hub is consistent. With the two preservation lemmas, the hub stays consistent as long as every Connect names a new connection id (or one already in that session) and every Disconnect names the connection's own session. |
| Controller.ConnectIdempotent | server/src/controller/controller.rs:111-127 | Connecting the same (session, connection, handle) twice gives the same registries as connecting once. |
| Controller.DisconnectTwiceIsOnce | server/src/controller/controller.rs:85 | A repeated Disconnect, such as the timeout Disconnect followed by the one from `stopping`, has no further effect. |
| Controller.ConnectThenDisconnect | server/src/controller/controller.rs:84-127 | Connecting a new connection and then disconnecting it restores both registries exactly. |
| Controller.ConnectKeepsNoEmptySessions | server/src/controller/controller.rs:111-114 | Connect never leaves a session mapped to an empty set. |
| Controller.DisconnectKeepsNoEmptySessions | server/src/controller/controller.rs:94-100 | Disconnect never leaves a session mapped to an empty set. |
| Controller.ConnectPreservesWellFormed | server/src/controller/controller.rs:109-127 | Connect keeps the registries consistent when the connection is new or already in that session. Consistent means: no empty session, every member has a handle, every handle belongs to a session, and sessions are disjoint. |
| Controller.DisconnectPreservesWellFormed | server/src/controller/controller.rs:84-103 | Disconnect keeps the registries consistent when it names the connection's own session. |
| Controller.LastDisconnectRemovesSession | server/src/controller/controller.rs:97-99 | When the only member leaves, the session is no longer tracked, and all other sessions stay tracked. |
| WsProtocol.New | server/src/controller/ws_connection.rs:27-34 | A new connection keeps its ids and mailbox, and counts as last heard at its creation time, so it is not timed out then. |
| WsProtocol.Heartbeat | server/src/controller/ws_connection.rs:36-50 | A tick never changes the state. If more than 10 s have passed since the client was last heard, the connection sends Disconnect with its own ids and stops. Otherwise it sends a "PING" ping. |
| WsProtocol.TimeoutBoundary | server/src/controller/ws_connection.rs:17-38 | Exactly 10 s of silence still pings. One nanosecond more disconnects, because the comparison is strict. |
| WsProtocol.OneMissedPingTolerated | server/src/controller/ws_connection.rs:17-38 | The timeout is two heartbeat intervals, so a client that misses one ping is not dropped by the next tick. |
| WsProtocol.PongKeepsAlive | server/src/controller/ws_connection.rs:106-112 | After a pong at time t, no tick up to t + 10 s stops the connection. |
| WsProtocol.Started | server/src/controller/ws_connection.rs:56-75 | Start-up sends Connect with the connection's own mailbox and ids, and nothing else. When that delivery failed it then stops, and only then. |
| WsProtocol.Stopping | server/src/controller/ws_connection.rs:77-83 | Stopping always sends exactly one message, a Disconnect carrying the connection's own ids. The legacy actor has the same code at server/src/ws_connection.rs:73-79. |
| WsProtocol.HandleControl | server/src/controller/ws_connection.rs:104-121 | Ping and Pong set the last-heard time to now; other frames keep the state. A ping is answered with a pong carrying the same payload. Pong and Nop send nothing. Binary data is echoed back. Close is echoed and then the connection stops. Continuation only stops it. No control frame sends anything to the controller. |
| WsConnection.Handle | server/src/controller/ws_connection.rs:127-145 | Text that does not decode changes nothing and sends nothing. A Search request is sent as `Search{query, own session, own connection}`. A Queue request is sent with the session id only if its uri parses as a track id, and otherwise nothing is sent. Text never stops the connection. Other frames behave as in `HandleControl`. |
| WsConnection.Push | server/src/controller/ws_connection.rs:151-158 | A pushed response is sent as one Text frame holding its serialisation. If serialisation fails, nothing is sent. |
| WsConnection.HubMessagesCarryOwnIds | server/src/controller/ws_connection.rs:128-141 | Every Search or Queue message a connection sends carries that connection's own session id, and Search also carries its connection id. |
| LegacyWsConnection.Tick | server/src/ws_connection.rs:32-46 | The legacy heartbeat stops the connection exactly when it has timed out. In that case it sends exactly its own Disconnect and then stops; otherwise it only pings. |
| LegacyWsConnection.Handle | server/src/ws_connection.rs:83-108 | Every Text frame is forwarded verbatim as a ClientActorMessage tagged with the connection's own ids. Ping and Pong refresh the last-heard time. Other frames behave as in the controller package's actor. |
| LegacyWsConnection.Push | server/src/ws_connection.rs:114-116 | A pushed string is sent unchanged as one Text frame. |
| ConnectionLifecycle.RunningConnectionSends | server/src/controller/ws_connection.rs:36-145 | While running, a connection never sends Connect, and every Disconnect it sends names its own ids. This covers frames, heartbeat ticks and shut-down. |
| ConnectionLifecycle.LegacyConnectionSends | server/src/ws_connection.rs:32-108 | The legacy actor's frames and heartbeat also never send Connect, and send only their own Disconnect. So the lifecycle lemma below covers both actors. |
| ConnectionLifecycle.SearchReachesRequester | server/src/controller/controller.rs:149-169 | A registered client's search is sent to the hub as its own Search, which goes to the agent as the hub's only effect. A successful search is answered once. The hub pushes the projected page to that connection's own mailbox, and the connection sends its serialisation as one Text frame. |
| ConnectionLifecycle.RunningKeepsJoinedOrLeft | server/src/controller/controller.rs:84-127 | While a connection runs, the hub's registries are either as right after its Connect or as before it, when the hub handles no other connection's message in between. |
| ConnectionLifecycle.LifecycleRestoresHub | server/src/controller/ws_connection.rs:56-83 | A new connection that starts, sends anything while running, and stops leaves the hub's registries as they were, when the hub handles no other connection's message in between. This includes the double Disconnect on timeout. |
| TrackSearch.ArtistNames | server/src/routes/session/api.rs:50-58 | The result has one name per artist, and the i-th name is the i-th artist's name. |
| TrackSearch.BuildArtistStringVec | server/src/session_agent.rs:72-80 | The loop builds the list of artist names in order, one per artist. |
| TrackSearch.Info | server/src/session_agent.rs:105-109 | A TrackInfo copies the hit's name, lists its artists' names, and uses the string form of its id. |
| TrackSearch.Project | server/src/session_agent.rs:99-111 | The output is no longer than the page. Every output track is built from a page hit that has an id. |
| TrackSearch.ProjectKeepsIdentifiedInOrder | server/src/routes/session/api.rs:68-80 | The k-th output track is built from the k-th hit that has an id, in page order. Every hit with an id appears, and no hit without one does. |
| TrackSearch.GetSearchResults | server/src/session_agent.rs:82-115 | The page loop returns the projection of a Tracks page and an empty list for any other page kind. Given the Player honours `limit 10`, the result never has more than 10 tracks. |
| SessionAgent.LoadCredentials | server/src/session_agent.rs:117-118 | Credentials load exactly when the session row exists and its token parses, and the loaded token is that row's token. |
| SessionAgent.Search | server/src/session_agent.rs:117-125 | The search succeeds exactly when the credentials load and the Player call succeeds. On success the result is the page's projection, with at most 10 tracks. |
| SessionAgent.Run | server/src/session_agent.rs:38-57 | The loop sends at most one answer per request. Every answer is the successful search result of some request, addressed to that request's connection id. |
| SessionAgent.RunAppend | server/src/session_agent.rs:39-56 | Requests are handled in arrival order. The answers to two batches in sequence are the first batch's answers followed by the second's. |
| SessionAgent.FailedSearchIsSilent | server/src/session_agent.rs:48-53 | A search whose credentials or Player call fail sends nothing. |
| SessionAgent.SuccessfulSearchIsAnswered | server/src/session_agent.rs:46-53 | A successful search is answered exactly once, with its projection, to the requesting connection. |
| SearchApi.E500 | server/src/routes/utils.rs:11-17 | Every failure becomes an HTTP 500 that keeps its cause for logging. |
| SearchApi.Search | server/src/routes/session/api.rs:31-48 | The route fails exactly when the session row is missing, the token does not parse, or the Player call fails. Each failure is an HTTP 500 that keeps its cause: the missing row, the token, or the Player's error. On success it returns the page's projection, with at most 10 tracks. |
| SearchApi.AgreesWithAgent | server/src/routes/session/api.rs:60-84 | For the same session, token and Player answer, the route and the agent succeed in the same cases and return the same tracks. |
| Db.SessionExists | server/src/db.rs:26-32 | A session exists exactly when a row has its id. |
| Db.NewSession | server/src/db.rs:34-49 | Inserting fails with a unique violation exactly when the id already exists. Otherwise it adds one row with no current track and leaves every other row and the queue untouched. |
| Db.GetSession | server/src/db.rs:51-62 | The read fails with RowNotFound exactly when no row has the id. Otherwise it returns the row's token. |
| Db.NewSessionThenGet | server/src/db.rs:26-62 | After `new_session(id, tok)`, the session exists and `get_session(id)` returns `tok`. |
| Db.HasCurrentTrack | server/src/db.rs:64-76 | A session has a current track exactly when its row exists and the track is not null. |
| Db.SetCurrentTrack | server/src/db.rs:78-100 | Only row `id`'s current track changes, and it becomes the track's URI. Afterwards `has_current_track(id)` holds exactly when the row exists. The queue is untouched. |
| Db.SetCurrentTrackOverwrites | server/src/db.rs:84-95 | Setting the current track twice leaves the second track. |
| Db.QueueTrack | server/src/db.rs:102-123 | The pair (track URI, session) is added to the queued set. The sessions table is untouched. |
| Db.QueueTrackIdempotent | server/src/db.rs:108-114 | Because of `ON CONFLICT DO NOTHING`, queueing the same track for the same session twice equals queueing it once. |
| Db.QueueTrackCommutes | server/src/db.rs:108-117 | The order in which two tracks are queued does not matter. |
| Db.QueueTrackKeepsCurrentTrack | server/src/db.rs:108-117 | Queueing never changes any session's token or current track. |
| Db.QueueTrackDistinctEntries | server/src/db.rs:108-114 | Two different new tracks queued for one session make two distinct entries. |
| Configuration.AsStr | server/src/configuration.rs:41-46 | Local prints as "local" and Production as "production", and no other combination occurs. |
| Configuration.TryFrom | server/src/configuration.rs:49-62 | Parsing succeeds exactly when the lower-cased input is "local" or "production", and the parsed value prints as that lower-cased input. Otherwise the error is the lower-cased input followed by the fixed "is not a supported environment" message. |
| Configuration.RoundTrip | server/src/configuration.rs:41-54 | Parsing the printed form of an environment gives that environment back. |
| Configuration.CaseInsensitive | server/src/configuration.rs:52-54 | Two inputs that agree after lower-casing parse to the same result. |
| Configuration.MixedCaseAccepted | server/src/configuration.rs:52-54 | "Production" and "LOCAL" are accepted. |
| SessionState.Display | server/src/session_state.rs:16-27 | Host displays as "host" and Peer as "peer". |
| SessionState.DisplayInjective | server/src/session_state.rs:18-24 | Distinct contexts display as distinct strings. |
| SessionState.Renew | server/src/session_state.rs:33-38 | After `renew(id, ctx)`, `get_id` returns `Some(id)` and `get_context` returns `Some(ctx)`. Other keys are kept. |
| SessionState.GetId | server/src/session_state.rs:40-42 | The result is `Ok(None)` exactly when no id is stored. A stored UUID is returned as `Some` of it. A stored value that is not a UUID fails to decode. |
| SessionState.GetContext | server/src/session_state.rs:43-45 | The result is `Ok(None)` exactly when no context is stored. A stored context is returned as `Some` of it. A stored value that is not a context fails to decode. |
| SessionState.LogOut | server/src/session_state.rs:46-48 | Purging empties the whole session: no key is left, so neither an id nor a context is stored. |
| SessionState.KeysIndependent | server/src/session_state.rs:30-31 | The two keys are distinct. Writing the id never changes the stored context, and writing the context never changes the stored id. |

## Left out

- The periodic poll in `Controller::started` (controller.rs:61-79) only logs each session id, so it is not modelled.
- The body of `Handler<Queue>` (controller.rs:192-259) is commented out except for a log line, so it is modelled as a no-op. That includes its only call of `get_device` (controller.rs:172-187), so `get_device` is not modelled.
- The broadcast of client text to the rest of a session (controller.rs:141-146) is commented out, so ClientActorMessage is a no-op.
- There is no playback engine in this code: no vote handling, no poll that corrects playback drift, no token refresh and no session kill. None of these is modelled.
- The actor runtime is not modelled: timers, mailboxes and the asynchronous `ctx.stop()`. Handlers are sequential steps. `Stop` is an effect, and the later `stopping` call is a separate step.
- A transport protocol error makes the actor panic (`Err(e) => panic!`). Panics are not modelled, so the frame type has no error case.
- Logging is not modelled.
- Real Player calls are not modelled. This covers the search request itself (`market` FromToken for the agent, none for the route), OAuth, device lookup and token (de)serialisation. The Player's answer is an input, and a `WithinLimit` precondition stands for the requested `limit 10`.
- JSON encoding and decoding are not modelled. This covers client requests, pushed responses and stored tokens. Each is a function parameter.
- `TrackId::from_str` is not modelled; it is a function parameter.
- The SQL engine, connection pool and transactions are not modelled (`has_current_track` begins a transaction that `set_current_track` or `queue_track` commits). Each store operation is one atomic step.
- Transient database I/O errors are not modelled.
- `created_at` timestamps are not modelled.
- Configuration.TryFrom: lower-cases ASCII letters only. Rust's `to_lowercase` is Unicode-aware, so for non-ASCII input only the text of the error message can differ. No non-ASCII input lower-cases to "local" or "production".
- SearchApi.Search: takes the session id as an input. The route reads it with a double `unwrap` that panics when the cookie has no id, and that panic is not modelled.
- SessionState.Renew: rotating the session key and the cookie status flags are not modelled; only the stored key-value state is.
- Serialisation failures of `insert` are not modelled, because values of these types always serialise.
- Configuration file and environment loading (`get_configuration`) is not modelled.
- HTTP routing, middleware and templates are not modelled.
- The client-side TypeScript is not modelled.
- Calls to functions that the code does not define are not modelled (`insert_session`, `insert_user_id`, `get_user_id`).

=== FILE: configuration.dfy ===
/** The deployment environment name: parsing (case-insensitive) and printing. */
module Configuration {

  import opened Wrappers

  datatype Environment = Local | Production

  /** `as_str`. */
  function AsStr(e: Environment): (s: string)
    ensures e == Local <==> s == "local"
    ensures e == Production <==> s == "production"
  {
    match e
    case Local => "local"
    case Production => "production"
  }

  /** Lower-casing of ASCII letters; other characters are kept. */
  function LowerChar(ch: char): (r: char)
    ensures 'A' <= ch <= 'Z' ==> 'a' <= r <= 'z' && r as int == ch as int + 32
    ensures !('A' <= ch <= 'Z') ==> r == ch
  {
    if 'A' <= ch <= 'Z' then (ch as int - 'A' as int + 'a' as int) as char else ch
  }

  function ToLower(s: string): (r: string)
    ensures |r| == |s| && forall i :: 0 <= i < |s| ==> r[i] == LowerChar(s[i])
  {
    seq(|s|, i requires 0 <= i < |s| => LowerChar(s[i]))
  }

  const UnsupportedSuffix: string := " is not a supported environment. Use either `local` or `production`."

  /** `TryFrom<String>`: the lower-cased input must name an environment. */
  function TryFrom(s: string): (r: Result<Environment, string>)
    ensures r.Ok? <==> ToLower(s) == "local" || ToLower(s) == "production"
    ensures r.Ok? ==> AsStr(r.value) == ToLower(s)
    ensures r.Err? ==> r.error == ToLower(s) + UnsupportedSuffix
  {
    var lower := ToLower(s);
    if lower == "local" then Ok(Local)
    else if lower == "production" then Ok(Production)
    else Err(lower + UnsupportedSuffix)
  }

  /** Lower-casing twice is lower-casing once. */
  lemma ToLowerIdempotent(s: string)
    ensures ToLower(ToLower(s)) == ToLower(s)
  {
  }

  /** Printing then parsing gives the environment back. */
  lemma RoundTrip(e: Environment)
    ensures TryFrom(AsStr(e)) == Ok(e)
  {
    ToLowerIdempotent(AsStr(e));
  }

  /** Parsing ignores case: any two spellings with the same lower case parse alike. */
  lemma CaseInsensitive(s: string, t: string)
    requires ToLower(s) == ToLower(t)
    ensures TryFrom(s) == TryFrom(t)
  {
  }

  /** For instance "Production" and "LOCAL" are accepted. */
  lemma MixedCaseAccepted()
    ensures TryFrom("Production") == Ok(Production)
    ensures TryFrom("LOCAL") == Ok(Local)
  {
    assert ToLower("Production") == "production";
    assert ToLower("LOCAL") == "local";
  }
}

=== FILE: connection_lifecycle.dfy ===
/**
  How a connection actor's messages drive the controller: whatever a
  connection does between its start-up Connect and its final Disconnect,
  the controller's registry ends where it began.
 */
module ConnectionLifecycle {

  import opened Wrappers
  import opened Primitives
  import opened Player
  import opened Messages
  import opened WsProtocol
  import WsConnection
  import LegacyWsConnection
  import Controller
  import TrackSearch
  import Db
  import SessionAgent

  /** The messages a handler sent to the controller, in order. */
  function HubMessages(out: seq<Effect>): (msgs: seq<HubMessage>)
    ensures forall m :: m in msgs <==> ToHub(m) in out
  {
    if |out| == 0 then []
    else (if out[0].ToHub? then [out[0].message] else []) + HubMessages(out[1..])
  }

  /** The controller handling `msgs` in order (the agent channel is open). */
  function Apply(hub: Controller.Controller, msgs: seq<HubMessage>): Controller.Controller
    decreases |msgs|
  {
    if |msgs| == 0 then hub else Apply(Controller.Handle(hub, msgs[0], true).hub, msgs[1..])
  }

  /** A message a running connection may send: never a Connect, and only its own Disconnect. */
  ghost predicate SentWhileRunning(conn: Conn, m: HubMessage) {
    && !m.ConnectMsg?
    && (m.DisconnectMsg? ==> m.disconnect == Disconnect(conn.sessionId, conn.connectionId))
  }

  /** Frames, heartbeats and shutdown only ever send such messages. */
  lemma RunningConnectionSends(conn: Conn, now: Nanos, f: Frame, decode: string -> Option<WsConnection.Request>,
                               parseTrackId: string -> Option<TrackId>)
    ensures forall m :: m in HubMessages(WsConnection.Handle(conn, now, f, decode, parseTrackId).out) ==> SentWhileRunning(conn, m)
    ensures forall m :: m in HubMessages(Heartbeat(conn, now).out) ==> SentWhileRunning(conn, m)
    ensures forall m :: m in HubMessages(Stopping(conn)) ==> SentWhileRunning(conn, m)
  {
  }

  /** The legacy actor's frames and heartbeat only ever send such messages too. */
  lemma LegacyConnectionSends(conn: Conn, now: Nanos, f: Frame)
    ensures forall m :: m in HubMessages(LegacyWsConnection.Handle(conn, now, f).out) ==> SentWhileRunning(conn, m)
    ensures forall m :: m in HubMessages(LegacyWsConnection.Tick(conn, now).out) ==> SentWhileRunning(conn, m)
  {
  }

  /**
    A search typed by a registered client travels the whole path: the
    connection sends it to the controller, the controller hands it to the
    agent, the agent answers it, and the controller pushes the projected page
    back to that connection's own mailbox, which sends it to the client.
   */
  lemma SearchReachesRequester(hub: Controller.Controller, conn: Conn, now: Nanos, text: string, query: string,
                               decode: string -> Option<WsConnection.Request>,
                               parseTrackId: string -> Option<TrackId>,
                               store: Db.Store, tokenParses: string -> bool, page: SearchPage,
                               encode: Response -> Option<string>)
    requires conn.connectionId in hub.clients && hub.clients[conn.connectionId] == conn.addr
    requires decode(text) == Some(WsConnection.SearchRequest(query))
    requires TrackSearch.WithinLimit(page)
    requires SessionAgent.LoadCredentials(store, conn.sessionId, tokenParses).Ok?
    ensures
      var search := Search(query, conn.sessionId, conn.connectionId);
      var result := TrackSearch.SearchResult(TrackSearch.PageTracks(page));
      var response := SearchResult(SearchResultPayload(result));
      && HubMessages(WsConnection.Handle(conn, now, Text(text), decode, parseTrackId).out) == [SearchMsg(search)]
      && Controller.Handle(hub, SearchMsg(search), true).out == [Controller.ToAgent(Controller.AgentSearch(search))]
      && SessionAgent.Run(store, [Controller.AgentSearch(search)], tokenParses, [Ok(page)])
           == [SearchComplete(result, conn.connectionId)]
      && Controller.Handle(hub, SearchCompleteMsg(SearchComplete(result, conn.connectionId)), true).out
           == [Controller.Deliver(conn.addr, WsMessage(response))]
      && (encode(response).Some? ==> WsConnection.Push(conn, WsMessage(response), encode) == [ToClient(Text(encode(response).value))])
  {
    var search := Search(query, conn.sessionId, conn.connectionId);
    var out := WsConnection.Handle(conn, now, Text(text), decode, parseTrackId).out;
    assert out == [ToHub(SearchMsg(search))];
    assert HubMessages(out[1..]) == [];
    SessionAgent.SuccessfulSearchIsAnswered(store, Controller.AgentSearch(search), tokenParses, page);
  }

  /**
    Between Connect and the end, the registry is either as after Connect or as
    before it, when the hub handles no other connection's message in between.
   */
  lemma {:induction false} RunningKeepsJoinedOrLeft(hub: Controller.Controller, conn: Conn,
                                                    state: Controller.Controller, msgs: seq<HubMessage>)
    requires Controller.NoEmptySessions(hub)
    requires conn.connectionId !in hub.clients && conn.connectionId !in Controller.Members(hub, conn.sessionId)
    requires state == hub || state == Controller.OnConnect(hub, Connect(conn.addr, conn.sessionId, conn.connectionId))
    requires forall m :: m in msgs ==> SentWhileRunning(conn, m)
    ensures Apply(state, msgs) == hub ||
            Apply(state, msgs) == Controller.OnConnect(hub, Connect(conn.addr, conn.sessionId, conn.connectionId))
    decreases |msgs|
  {
    if |msgs| > 0 {
      var m := msgs[0];
      assert m in msgs;
      var next := Controller.Handle(state, m, true).hub;
      if m.DisconnectMsg? {
        if state == hub {
          assert next == hub;
        } else {
          Controller.ConnectThenDisconnect(hub, conn.addr, conn.sessionId, conn.connectionId);
          assert next == hub;
        }
      } else {
        assert next == state;
      }
      assert forall x :: x in msgs[1..] ==> x in msgs;
      RunningKeepsJoinedOrLeft(hub, conn, next, msgs[1..]);
    }
  }

  lemma {:induction false} ApplyAppend(hub: Controller.Controller, a: seq<HubMessage>, b: seq<HubMessage>)
    ensures Apply(hub, a + b) == Apply(Apply(hub, a), b)
    decreases |a|
  {
    if |a| == 0 {
      assert a + b == b;
    } else {
      assert (a + b)[0] == a[0] && (a + b)[1..] == a[1..] + b;
      ApplyAppend(Controller.Handle(hub, a[0], true).hub, a[1..], b);
    }
  }

  /**
    A new connection that starts, sends anything while running, and stops
    (possibly after a timeout Disconnect of its own) leaves the controller's
    registry exactly as it found it, when the hub handles no other
    connection's message in between.
   */
  lemma LifecycleRestoresHub(hub: Controller.Controller, conn: Conn, running: seq<HubMessage>)
    requires Controller.NoEmptySessions(hub)
    requires conn.connectionId !in hub.clients && conn.connectionId !in Controller.Members(hub, conn.sessionId)
    requires forall m :: m in running ==> SentWhileRunning(conn, m)
    ensures Apply(hub, HubMessages(Started(conn, true)) + running + HubMessages(Stopping(conn))) == hub
  {
    var connect := Connect(conn.addr, conn.sessionId, conn.connectionId);
    var joined := Controller.OnConnect(hub, connect);
    assert HubMessages(Started(conn, true)) == [ConnectMsg(connect)] by {
      assert Started(conn, true) == [ToHub(ConnectMsg(connect))];
      assert HubMessages(Started(conn, true)[1..]) == [];
    }
    assert HubMessages(Stopping(conn)) == [OwnDisconnect(conn)] by {
      assert HubMessages(Stopping(conn)[1..]) == [];
    }
    ApplyAppend(hub, [ConnectMsg(connect)] + running, [OwnDisconnect(conn)]);
    ApplyAppend(hub, [ConnectMsg(connect)], running);
    assert Apply(hub, [ConnectMsg(connect)]) == joined;
    RunningKeepsJoinedOrLeft(hub, conn, joined, running);
    var mid := Apply(joined, running);
    if mid == joined {
      Controller.ConnectThenDisconnect(hub, conn.addr, conn.sessionId, conn.connectionId);
    }
    assert Apply(mid, [OwnDisconnect(conn)]) == Controller.Handle(mid, OwnDisconnect(conn), true).hub;
  }
}

=== FILE: controller.dfy ===
/**
  The controller hub: the registry of which connections belong to which
  session, the delivery handle of every connection, targeted delivery and
  the hand-off of searches to the session agent. Each handler is a pure
  transition on the registry that also returns what it sends.
 */
module Controller {

  import opened Primitives
  import opened Messages
  import TrackSearch

  /** `SessionAgentRequest`: the only request kind is a search, answered to the controller. */
  datatype AgentRequest = AgentSearch(search: Search)

  datatype Controller = Controller(clients: map<Uuid, Recipient>, sessions: map<Uuid, set<Uuid>>)

  /** What a handler sends: a push to a connection, or a request to the agent. */
  datatype Effect =
    | Deliver(to: Recipient, message: WsMessage)
    | ToAgent(request: AgentRequest)

  datatype Step = Step(hub: Controller, out: seq<Effect>)

  /** `Controller::new`: no connection is registered and no session has members. */
  function New(): (c: Controller)
    ensures c.clients.Keys == {}
    ensures c.sessions.Keys == {}
  {
    Controller(map[], map[])
  }

  /** The connections registered under a session (none when it has no entry). */
  function Members(c: Controller, sessionId: Uuid): set<Uuid> {
    if sessionId in c.sessions then c.sessions[sessionId] else {}
  }

  /** No session entry holds an empty set. */
  ghost predicate NoEmptySessions(c: Controller) {
    forall s :: s in c.sessions ==> c.sessions[s] != {}
  }

  /** Every member of a session has a delivery handle. */
  ghost predicate MembersRegistered(c: Controller) {
    forall s, x :: s in c.sessions && x in c.sessions[s] ==> x in c.clients
  }

  /** Every delivery handle belongs to a connection of some session. */
  ghost predicate ClientsInSessions(c: Controller) {
    forall x :: x in c.clients ==> exists s :: s in c.sessions && x in c.sessions[s]
  }

  /** No connection is in two sessions. */
  ghost predicate SessionsDisjoint(c: Controller) {
    forall s, t, x :: s in c.sessions && t in c.sessions && x in c.sessions[s] && x in c.sessions[t] ==> s == t
  }

  /** The registry is consistent: the four properties above together. */
  ghost predicate WellFormed(c: Controller) {
    NoEmptySessions(c) && MembersRegistered(c) && ClientsInSessions(c) && SessionsDisjoint(c)
  }

  /** `Handler<Connect>`: join the session (creating it if needed) and record the handle. */
  function OnConnect(c: Controller, m: Connect): (r: Controller)
    ensures m.sessionId in r.sessions
    ensures forall s :: Members(r, s) == if s == m.sessionId then Members(c, s) + {m.connectionId} else Members(c, s)
    ensures r.sessions.Keys == c.sessions.Keys + {m.sessionId}
    ensures r.clients.Keys == c.clients.Keys + {m.connectionId}
    ensures r.clients[m.connectionId] == m.clientAddr
    ensures forall x :: x in c.clients && x != m.connectionId ==> r.clients[x] == c.clients[x]
  {
    var members := Members(c, m.sessionId) + {m.connectionId};
    Controller(c.clients[m.connectionId := m.clientAddr], c.sessions[m.sessionId := members])
  }

  /**
    `Handler<Disconnect>`: only a registered connection is acted on. Its handle
    is dropped; its session loses it, or disappears when it had at most one member.
   */
  function OnDisconnect(c: Controller, m: Disconnect): (r: Controller)
    ensures m.connectionId !in c.clients ==> r == c
    ensures m.connectionId in c.clients ==> r.clients.Keys == c.clients.Keys - {m.connectionId}
    ensures forall x :: x in r.clients ==> r.clients[x] == c.clients[x]
    ensures forall s :: s != m.sessionId ==> Members(r, s) == Members(c, s)
    ensures r.sessions.Keys - {m.sessionId} == c.sessions.Keys - {m.sessionId}
    ensures m.connectionId in c.clients && m.sessionId in c.sessions && |c.sessions[m.sessionId]| > 1 ==>
      m.sessionId in r.sessions && r.sessions[m.sessionId] == c.sessions[m.sessionId] - {m.connectionId}
    ensures m.connectionId in c.clients && |Members(c, m.sessionId)| <= 1 ==> m.sessionId !in r.sessions
  {
    if m.connectionId !in c.clients then c
    else
      var clients := c.clients - {m.connectionId};
      if m.sessionId in c.sessions then
        var members := c.sessions[m.sessionId];
        if |members| > 1 then
          Controller(clients, c.sessions[m.sessionId := members - {m.connectionId}])
        else
          Controller(clients, c.sessions - {m.sessionId})
      else
        Controller(clients, c.sessions)
  }

  /** `send_message`: a push reaches a registered connection's handle, and nothing else. */
  function SendMessage(c: Controller, response: Response, to: Uuid): (out: seq<Effect>)
    ensures |out| <= 1
    ensures out != [] <==> to in c.clients
    ensures forall e :: e in out ==> e.Deliver? && e.to == c.clients[to] && e.message.response == response
  {
    if to in c.clients then [Deliver(c.clients[to], WsMessage(response))] else []
  }

  /** Whether every push in `out` targets a handle registered in `c`. */
  ghost predicate DeliversToRegistered(c: Controller, out: seq<Effect>) {
    forall e :: e in out && e.Deliver? ==> exists x :: x in c.clients && c.clients[x] == e.to
  }

  /**
    One message handled by the controller. `agentOpen` tells whether the
    agent's channel still accepts requests (a failed send is only logged).
   */
  function Handle(c: Controller, msg: HubMessage, agentOpen: bool): (r: Step)
    ensures !msg.ConnectMsg? && !msg.DisconnectMsg? ==> r.hub == c
    ensures msg.ConnectMsg? ==> r.hub == OnConnect(c, msg.connect)
    ensures msg.DisconnectMsg? ==> r.hub == OnDisconnect(c, msg.disconnect)
    ensures DeliversToRegistered(c, r.out)
    ensures forall e :: e in r.out && e.ToAgent? ==> msg.SearchMsg? && e.request == AgentSearch(msg.search)
    ensures msg.SearchMsg? ==> r.out == (if agentOpen then [ToAgent(AgentSearch(msg.search))] else [])
    ensures msg.ConnectMsg? || msg.DisconnectMsg? || msg.ClientMsg? || msg.QueueMsg? ==> r.out == []
    ensures msg.SearchCompleteMsg? ==> (r.out != [] <==> msg.complete.connectionId in c.clients)
    ensures msg.SearchCompleteMsg? && r.out != [] ==>
      r.out == [Deliver(c.clients[msg.complete.connectionId], WsMessage(SearchResult(SearchResultPayload(msg.complete.result))))]
  {
    match msg
    case ConnectMsg(m) => Step(OnConnect(c, m), [])
    case DisconnectMsg(m) => Step(OnDisconnect(c, m), [])
    // the broadcast of raw client text is commented out: nothing happens
    case ClientMsg(_) => Step(c, [])
    case SearchMsg(m) => Step(c, if agentOpen then [ToAgent(AgentSearch(m))] else [])
    // the queueing decision is commented out: the handler only logs
    case QueueMsg(_) => Step(c, [])
    case SearchCompleteMsg(m) =>
      var out := SendMessage(c, SearchResult(SearchResultPayload(m.result)), m.connectionId);
      assert DeliversToRegistered(c, out) by {
        if m.connectionId in c.clients {
          assert c.clients[m.connectionId] == out[0].to;
        }
      }
      Step(c, out)
  }

  /** A set holding two distinct members has more than one element. */
  lemma TwoMembers(s: set<Uuid>, x: Uuid, y: Uuid)
    requires x in s && y in s && x != y
    ensures |s| > 1
  {
    assert y in s - {x};
    assert |s - {x}| == |s| - 1;
  }

  /** Invariant: Connect never leaves an empty session set. */
  lemma ConnectKeepsNoEmptySessions(c: Controller, m: Connect)
    requires NoEmptySessions(c)
    ensures NoEmptySessions(OnConnect(c, m))
  {
    var r := OnConnect(c, m);
    forall s | s in r.sessions
      ensures r.sessions[s] != {}
    {
      if s == m.sessionId {
        assert m.connectionId in r.sessions[s];
      }
    }
  }

  /** Invariant: Disconnect never leaves an empty session set. */
  lemma DisconnectKeepsNoEmptySessions(c: Controller, m: Disconnect)
    requires NoEmptySessions(c)
    ensures NoEmptySessions(OnDisconnect(c, m))
  {
    var r := OnDisconnect(c, m);
    forall s | s in r.sessions
      ensures r.sessions[s] != {}
    {
      if s == m.sessionId && m.connectionId in c.clients {
        var members := c.sessions[s];
        assert |members| > 1;
        assert r.sessions[s] == members - {m.connectionId};
        if m.connectionId in members {
          assert |members - {m.connectionId}| == |members| - 1;
        }
      } else {
        assert Members(r, s) == Members(c, s);
      }
    }
  }

  /** Connecting the same connection twice to the same session is the same as once. */
  lemma ConnectIdempotent(c: Controller, m: Connect)
    ensures OnConnect(OnConnect(c, m), m) == OnConnect(c, m)
  {
    var once := OnConnect(c, m);
    assert Members(once, m.sessionId) + {m.connectionId} == Members(once, m.sessionId);
  }

  /** A second Disconnect (timeout path, then `stopping`) changes nothing. */
  lemma DisconnectTwiceIsOnce(c: Controller, m: Disconnect)
    ensures OnDisconnect(OnDisconnect(c, m), m) == OnDisconnect(c, m)
  {
  }

  /**
    Connecting a connection that is not yet registered anywhere in the
    session, then disconnecting it, restores both registries.
   */
  lemma ConnectThenDisconnect(c: Controller, addr: Recipient, sessionId: Uuid, connectionId: Uuid)
    requires NoEmptySessions(c)
    requires connectionId !in c.clients && connectionId !in Members(c, sessionId)
    ensures OnDisconnect(OnConnect(c, Connect(addr, sessionId, connectionId)), Disconnect(sessionId, connectionId)) == c
  {
    if sessionId in c.sessions {
      JoinExistingThenLeave(c, addr, sessionId, connectionId);
    } else {
      JoinNewThenLeave(c, addr, sessionId, connectionId);
    }
  }

  lemma JoinExistingThenLeave(c: Controller, addr: Recipient, sessionId: Uuid, connectionId: Uuid)
    requires sessionId in c.sessions && c.sessions[sessionId] != {}
    requires connectionId !in c.clients && connectionId !in c.sessions[sessionId]
    ensures OnDisconnect(OnConnect(c, Connect(addr, sessionId, connectionId)), Disconnect(sessionId, connectionId)) == c
  {
    var before := c.sessions[sessionId];
    var joinedMembers := before + {connectionId};
    var x :| x in before;
    TwoMembers(joinedMembers, x, connectionId);
    assert joinedMembers - {connectionId} == before;
    UpdateThenRemove(c.clients, connectionId, addr);
    UpdateTwice(c.sessions, sessionId, joinedMembers, before);
  }

  lemma JoinNewThenLeave(c: Controller, addr: Recipient, sessionId: Uuid, connectionId: Uuid)
    requires sessionId !in c.sessions && connectionId !in c.clients
    ensures OnDisconnect(OnConnect(c, Connect(addr, sessionId, connectionId)), Disconnect(sessionId, connectionId)) == c
  {
    assert Members(c, sessionId) + {connectionId} == {connectionId};
    UpdateThenRemove(c.clients, connectionId, addr);
    UpdateThenRemove(c.sessions, sessionId, {connectionId});
  }

  lemma UpdateThenRemove<K, V>(m: map<K, V>, k: K, v: V)
    requires k !in m
    ensures m[k := v] - {k} == m
  {
  }

  lemma UpdateTwice<K, V>(m: map<K, V>, k: K, v: V, w: V)
    requires k in m && m[k] == w
    ensures m[k := v][k := w] == m
  {
  }

  /**
    Connect keeps the registry well formed, provided the connection is new
    or already belongs to the same session.
   */
  lemma ConnectPreservesWellFormed(c: Controller, m: Connect)
    requires WellFormed(c)
    requires m.connectionId !in c.clients || m.connectionId in Members(c, m.sessionId)
    ensures WellFormed(OnConnect(c, m))
  {
    ConnectKeepsNoEmptySessions(c, m);
    ConnectKeepsRegistered(c, m);
    ConnectKeepsClientsInSessions(c, m);
    ConnectKeepsDisjoint(c, m);
  }

  lemma ConnectKeepsRegistered(c: Controller, m: Connect)
    requires MembersRegistered(c)
    ensures MembersRegistered(OnConnect(c, m))
  {
    var r := OnConnect(c, m);
    forall s, x | s in r.sessions && x in r.sessions[s]
      ensures x in r.clients
    {
      assert x in Members(r, s);
    }
  }

  lemma ConnectKeepsClientsInSessions(c: Controller, m: Connect)
    requires ClientsInSessions(c)
    ensures ClientsInSessions(OnConnect(c, m))
  {
    var r := OnConnect(c, m);
    forall x | x in r.clients
      ensures exists s :: s in r.sessions && x in r.sessions[s]
    {
      if x == m.connectionId {
        assert x in Members(r, m.sessionId);
      } else {
        var s :| s in c.sessions && x in c.sessions[s];
        assert x in Members(r, s);
      }
    }
  }

  lemma ConnectKeepsDisjoint(c: Controller, m: Connect)
    requires MembersRegistered(c) && SessionsDisjoint(c)
    requires m.connectionId !in c.clients || m.connectionId in Members(c, m.sessionId)
    ensures SessionsDisjoint(OnConnect(c, m))
  {
    var r := OnConnect(c, m);
    forall s, t, x | s in r.sessions && t in r.sessions && x in r.sessions[s] && x in r.sessions[t]
      ensures s == t
    {
      assert x in Members(r, s) && x in Members(r, t);
    }
  }

  /**
    Disconnect keeps the registry well formed, provided it names the
    connection's own session (as every connection's own Disconnect does).
   */
  lemma DisconnectPreservesWellFormed(c: Controller, m: Disconnect)
    requires WellFormed(c)
    requires m.connectionId in c.clients ==> m.connectionId in Members(c, m.sessionId)
    ensures WellFormed(OnDisconnect(c, m))
  {
    var r := OnDisconnect(c, m);
    DisconnectKeepsNoEmptySessions(c, m);
    if m.connectionId in c.clients {
      DisconnectKeepsRegistered(c, m);
      DisconnectKeepsClientsInSessions(c, m);
      forall s, t, x | s in r.sessions && t in r.sessions && x in r.sessions[s] && x in r.sessions[t]
        ensures s == t
      {
        assert x in Members(r, s) && x in Members(r, t);
        assert x in Members(c, s) && x in Members(c, t);
      }
    }
  }

  lemma DisconnectKeepsRegistered(c: Controller, m: Disconnect)
    requires MembersRegistered(c) && SessionsDisjoint(c)
    requires m.connectionId in c.clients && m.connectionId in Members(c, m.sessionId)
    ensures MembersRegistered(OnDisconnect(c, m))
  {
    var r := OnDisconnect(c, m);
    forall s, x | s in r.sessions && x in r.sessions[s]
      ensures x in r.clients
    {
      assert x in Members(r, s);
      assert x in Members(c, s);
      assert x != m.connectionId;
    }
  }

  lemma DisconnectKeepsClientsInSessions(c: Controller, m: Disconnect)
    requires ClientsInSessions(c)
    requires m.connectionId in c.clients && m.connectionId in Members(c, m.sessionId)
    ensures ClientsInSessions(OnDisconnect(c, m))
  {
    var r := OnDisconnect(c, m);
    forall x | x in r.clients
      ensures exists s :: s in r.sessions && x in r.sessions[s]
    {
      var s :| s in c.sessions && x in c.sessions[s];
      if s == m.sessionId {
        TwoMembers(c.sessions[s], x, m.connectionId);
        assert x in r.sessions[s];
      } else {
        assert x in Members(r, s);
      }
    }
  }

  /** The hub starts consistent, so every Connect and Disconnect after it keeps it so. */
  lemma NewWellFormed()
    ensures WellFormed(New())
  {
  }

  /** When the last connection of a session leaves, the session is no longer tracked. */
  lemma LastDisconnectRemovesSession(c: Controller, m: Disconnect)
    requires m.connectionId in c.clients && Members(c, m.sessionId) == {m.connectionId}
    ensures m.sessionId !in OnDisconnect(c, m).sessions
    ensures OnDisconnect(c, m).sessions.Keys == c.sessions.Keys - {m.sessionId}
  {
  }
}

=== FILE: db.dfy ===
/**
  The persistent store as an abstract relational state: the `sessions`
  table (id, token, optional current track URI) and the `queued_tracks`
  table of (track URI, session id) pairs. Each operation is one atomic step.
 */
module Db {

  import opened Wrappers
  import opened Primitives
  import opened Player

  datatype DbError =
    | RowNotFound       // `fetch_one` found no row
    | UniqueViolation   // a second row with an existing primary key

  datatype SessionRow = SessionRow(token: string, currentTrackUri: Option<string>)

  datatype Store = Store(sessions: map<Uuid, SessionRow>, queuedTracks: set<(string, Uuid)>)

  /** The projection `get_session` returns. */
  datatype Session = Session(token: string)

  /** `SELECT EXISTS(... WHERE id = $1)`. */
  predicate SessionExists(st: Store, id: Uuid) {
    id in st.sessions
  }

  /** Insert a row with no current track; the id must not be taken yet. */
  function NewSession(st: Store, id: Uuid, token: string): (r: Result<Store, DbError>)
    ensures r.Err? <==> SessionExists(st, id)
    ensures r.Err? ==> r.error == UniqueViolation
    ensures r.Ok? ==> r.value.sessions.Keys == st.sessions.Keys + {id}
    ensures r.Ok? ==> forall x :: x in st.sessions ==> r.value.sessions[x] == st.sessions[x]
    ensures r.Ok? ==> r.value.queuedTracks == st.queuedTracks
    ensures r.Ok? ==> !HasCurrentTrack(r.value, id)
  {
    if id in st.sessions then Err(UniqueViolation)
    else Ok(st.(sessions := st.sessions[id := SessionRow(token, None)]))
  }

  function GetSession(st: Store, id: Uuid): (r: Result<Session, DbError>)
    ensures r.Err? <==> !SessionExists(st, id)
    ensures r.Err? ==> r.error == RowNotFound
    ensures r.Ok? ==> r.value.token == st.sessions[id].token
  {
    if id in st.sessions then Ok(Session(st.sessions[id].token)) else Err(RowNotFound)
  }

  /** A row exists for the id and its current track is not null. */
  predicate HasCurrentTrack(st: Store, id: Uuid) {
    id in st.sessions && st.sessions[id].currentTrackUri.Some?
  }

  /** `UPDATE sessions SET current_track_uri`: a missing row updates nothing. */
  function SetCurrentTrack(st: Store, id: Uuid, trackId: TrackId): (r: Store)
    ensures r.sessions.Keys == st.sessions.Keys
    ensures forall x :: x in st.sessions && x != id ==> r.sessions[x] == st.sessions[x]
    ensures id in st.sessions ==>
      r.sessions[id] == SessionRow(st.sessions[id].token, Some(trackId.ToString()))
    ensures HasCurrentTrack(r, id) <==> SessionExists(st, id)
    ensures r.queuedTracks == st.queuedTracks
  {
    if id in st.sessions then
      st.(sessions := st.sessions[id := st.sessions[id].(currentTrackUri := Some(trackId.ToString()))])
    else st
  }

  /** Insert (track, session) into `queued_tracks`; an existing pair is left alone. */
  function QueueTrack(st: Store, id: Uuid, trackId: TrackId): (r: Store)
    ensures r.queuedTracks == st.queuedTracks + {(trackId.ToString(), id)}
    ensures r.sessions == st.sessions
  {
    st.(queuedTracks := st.queuedTracks + {(trackId.ToString(), id)})
  }

  /** After creating a session, reading it back returns the stored token. */
  lemma NewSessionThenGet(st: Store, id: Uuid, token: string)
    requires !SessionExists(st, id)
    ensures NewSession(st, id, token).Ok?
    ensures SessionExists(NewSession(st, id, token).value, id)
    ensures GetSession(NewSession(st, id, token).value, id) == Ok(Session(token))
  {
  }

  /** `ON CONFLICT DO NOTHING`: queueing the same track twice is the same as once. */
  lemma QueueTrackIdempotent(st: Store, id: Uuid, trackId: TrackId)
    ensures QueueTrack(QueueTrack(st, id, trackId), id, trackId) == QueueTrack(st, id, trackId)
  {
  }

  /** The order in which two tracks are queued does not matter. */
  lemma QueueTrackCommutes(st: Store, id1: Uuid, t1: TrackId, id2: Uuid, t2: TrackId)
    ensures QueueTrack(QueueTrack(st, id1, t1), id2, t2) == QueueTrack(QueueTrack(st, id2, t2), id1, t1)
  {
  }

  /** Queueing never touches a session row, so it never changes a current track. */
  lemma QueueTrackKeepsCurrentTrack(st: Store, id: Uuid, trackId: TrackId, other: Uuid)
    ensures HasCurrentTrack(QueueTrack(st, id, trackId), other) == HasCurrentTrack(st, other)
    ensures GetSession(QueueTrack(st, id, trackId), other) == GetSession(st, other)
  {
  }

  /** Distinct tracks queued for the same session are distinct entries. */
  lemma QueueTrackDistinctEntries(st: Store, id: Uuid, t1: TrackId, t2: TrackId)
    requires t1 != t2 && (t1.ToString(), id) !in st.queuedTracks && (t2.ToString(), id) !in st.queuedTracks
    ensures |QueueTrack(QueueTrack(st, id, t1), id, t2).queuedTracks| == |st.queuedTracks| + 2
  {
    if t1.ToString() == t2.ToString() {
      ToStringInjective(t1, t2);
    }
    var once := st.queuedTracks + {(t1.ToString(), id)};
    assert |once| == |st.queuedTracks| + 1;
    assert (t2.ToString(), id) !in once;
  }

  /** Setting the current track twice leaves the second track. */
  lemma SetCurrentTrackOverwrites(st: Store, id: Uuid, t1: TrackId, t2: TrackId)
    ensures SetCurrentTrack(SetCurrentTrack(st, id, t1), id, t2) == SetCurrentTrack(st, id, t2)
  {
  }
}

=== FILE: legacy_ws_connection.dfy ===
/**
  The older connection actor at the crate root: the same heartbeat and
  control frames, but Text frames are forwarded verbatim to the controller
  and pushes are raw strings.
 */
module LegacyWsConnection {

  import opened Primitives
  import opened Messages
  import opened WsProtocol

  /** The legacy heartbeat is the shared one: drop after a strict timeout, else ping. */
  function Tick(c: Conn, now: Nanos): (r: Step)
    ensures r.conn == c
    ensures TimedOut(c, now) <==> Stop in r.out
    ensures TimedOut(c, now) ==> r.out == [ToHub(DisconnectMsg(Disconnect(c.sessionId, c.connectionId))), Stop]
    ensures !TimedOut(c, now) ==> r.out == [ToClient(Ping(PingPayload))]
  {
    Heartbeat(c, now)
  }

  /** A frame received at time `now`; Text is relayed as a ClientActorMessage. */
  function Handle(c: Conn, now: Nanos, f: Frame): (r: Step)
    ensures f.Text? ==> r == Step(c, [ToHub(ClientMsg(ClientActorMessage(c.sessionId, c.connectionId, f.text)))])
    ensures f.Ping? || f.Pong? ==> r.conn.lastHeartbeat == now
    ensures !f.Text? ==> r == HandleControl(c, now, f)
  {
    if f.Text? then Step(c, [ToHub(ClientMsg(ClientActorMessage(c.sessionId, c.connectionId, f.text)))])
    else HandleControl(c, now, f)
  }

  /** `Handler<WsMessage>`: the pushed string goes out unchanged as a Text frame. */
  function Push(c: Conn, text: string): (out: seq<Effect>)
    ensures |out| == 1 && out[0].ToClient? && out[0].frame == Text(text)
  {
    [ToClient(Text(text))]
  }
}

=== FILE: messages.dfy ===
/**
  Messages exchanged between WebSocket connections, the controller hub and
  the session agent. `Search`, `Queue`, `SearchComplete` and `Response` are
  declared from the way the controller and the connection use their fields.
 */
module Messages {

  import opened Primitives
  import opened Player
  import TrackSearch

  /** The mailbox address of a connection actor (`Recipient<WsMessage>`). */
  datatype Recipient = Recipient(address: nat)

  datatype SearchResultPayload = SearchResultPayload(payload: TrackSearch.SearchResult)

  /** What the hub pushes to a client. */
  datatype Response = SearchResult(result: SearchResultPayload)

  /** An outbound push, as the controller wraps it for a connection. */
  datatype WsMessage = WsMessage(response: Response)

  datatype Connect = Connect(clientAddr: Recipient, sessionId: Uuid, connectionId: Uuid)

  datatype Disconnect = Disconnect(sessionId: Uuid, connectionId: Uuid)

  datatype ClientActorMessage = ClientActorMessage(sessionId: Uuid, connectionId: Uuid, msg: string)

  datatype Search = Search(query: string, sessionId: Uuid, connectionId: Uuid)

  datatype Queue = Queue(trackId: TrackId, sessionId: Uuid)

  datatype SearchComplete = SearchComplete(result: TrackSearch.SearchResult, connectionId: Uuid)

  /** Every message the controller actor handles. */
  datatype HubMessage =
    | ConnectMsg(connect: Connect)
    | DisconnectMsg(disconnect: Disconnect)
    | ClientMsg(client: ClientActorMessage)
    | SearchMsg(search: Search)
    | QueueMsg(queue: Queue)
    | SearchCompleteMsg(complete: SearchComplete)
}

=== FILE: player.dfy ===
/**
  The subset of the streaming-service client library's data model that the
  search projection reads: track ids, artists, full tracks and search pages.
 */
module Player {

  import opened Wrappers

  /** A track id; rendered as a `spotify:track:<id>` URI. */
  datatype TrackId = TrackId(id: string) {

    function ToString(): (s: string)
      ensures |s| == |UriPrefix| + |id| && s[..|UriPrefix|] == UriPrefix && s[|UriPrefix|..] == id
    {
      UriPrefix + id
    }
  }

  const UriPrefix: string := "spotify:track:"

  datatype SimplifiedArtist = SimplifiedArtist(name: string)

  /** One search hit; `id` is absent for local or unavailable tracks. */
  datatype FullTrack = FullTrack(id: Option<TrackId>, name: string, artists: seq<SimplifiedArtist>)

  /** The page a search returns, one variant per searched item type. */
  datatype SearchPage =
    | Tracks(items: seq<FullTrack>)
    | Artists
    | Albums
    | Playlists
    | Shows
    | Episodes

  /** An error reported by the Player's HTTP client. */
  datatype ClientError = ClientError(reason: string)

  /** Distinct track ids render as distinct strings. */
  lemma ToStringInjective(a: TrackId, b: TrackId)
    requires a.ToString() == b.ToString()
    ensures a == b
  {
    assert a.id == a.ToString()[|UriPrefix|..];
  }
}

=== FILE: primitives.dfy ===
/** Identifiers, bytes and clock values shared by every component. */
module Primitives {

  /** A 128-bit UUID, as used for session and connection ids. */
  newtype Uuid = x: int | 0 <= x < 0x1_0000_0000_0000_0000_0000_0000_0000_0000

  newtype Byte = x: int | 0 <= x < 256

  /** Monotonic clock readings (`Instant`) and durations, in nanoseconds. */
  type Nanos = nat

  const NanosPerSecond: Nanos := 1_000_000_000

  /** `later.duration_since(earlier)`: saturates to zero when `earlier` is in the future. */
  function DurationSince(later: Nanos, earlier: Nanos): (d: Nanos)
    ensures earlier <= later ==> earlier + d == later
    ensures later < earlier ==> d == 0
  {
    if earlier <= later then later - earlier else 0
  }
}

=== FILE: search_api.dfy ===
/**
  The HTTP search route: it reads the session's token from the store, builds
  a Player client from it and runs the same projection as the session agent
  (no market, limit ten). Every failure becomes an opaque HTTP 500.
 */
module SearchApi {

  import opened Wrappers
  import opened Primitives
  import opened Player
  import opened TrackSearch
  import Db
  import Messages
  import SessionAgent

  const InternalServerError: nat := 500

  /** The cause kept (for logging) inside the 500 response. */
  datatype Cause =
    | StoreFailure(dbError: Db.DbError)
    | TokenFailure
    | PlayerFailure(clientError: ClientError)

  datatype HttpError = HttpError(status: nat, cause: Cause)

  /** `e500`. */
  function E500(cause: Cause): (e: HttpError)
    ensures e.status == InternalServerError && e.cause == cause
  {
    HttpError(InternalServerError, cause)
  }

  /**
    `search` for the session id held in the caller's cookie; `reply` is the
    Player's answer, consulted only once the token has been read.
   */
  function Search(store: Db.Store, id: Uuid, tokenParses: string -> bool,
                  reply: Result<SearchPage, ClientError>): (r: Result<SearchResult, HttpError>)
    requires reply.Ok? ==> WithinLimit(reply.value)
    ensures r.Err? <==> id !in store.sessions || !tokenParses(store.sessions[id].token) || reply.Err?
    ensures r.Err? ==> r.error.status == InternalServerError
    ensures id !in store.sessions ==> r == Err(E500(StoreFailure(Db.RowNotFound)))
    ensures id in store.sessions && !tokenParses(store.sessions[id].token) ==> r == Err(E500(TokenFailure))
    ensures id in store.sessions && tokenParses(store.sessions[id].token) && reply.Err? ==>
      r == Err(E500(PlayerFailure(reply.error)))
    ensures r.Ok? ==> r.value.tracks == PageTracks(reply.value) && |r.value.tracks| <= SearchLimit
  {
    match Db.GetSession(store, id)
    case Err(e) => Err(E500(StoreFailure(e)))
    case Ok(session) =>
      if !tokenParses(session.token) then Err(E500(TokenFailure))
      else match reply
        case Err(e) => Err(E500(PlayerFailure(e)))
        case Ok(page) => Ok(SearchResult(PageTracks(page)))
  }

  /**
    The route and the session agent give the same tracks for the same
    session and Player answer, and fail in the same cases.
   */
  lemma AgreesWithAgent(store: Db.Store, msg: Messages.Search, tokenParses: string -> bool,
                        reply: Result<SearchPage, ClientError>)
    requires reply.Ok? ==> WithinLimit(reply.value)
    ensures Search(store, msg.sessionId, tokenParses, reply).Ok? <==>
            SessionAgent.Search(store, msg, tokenParses, reply).Ok?
    ensures Search(store, msg.sessionId, tokenParses, reply).Ok? ==>
            Search(store, msg.sessionId, tokenParses, reply).value ==
            SessionAgent.Search(store, msg, tokenParses, reply).value
  {
  }
}

=== FILE: session_agent.dfy ===
/**
  The session agent: a single worker draining the controller's requests.
  A search loads the session's Player credentials from the store, asks the
  Player for at most ten tracks, and projects the page; only a successful
  search is answered, to the connection that asked.
 */
module SessionAgent {

  import opened Wrappers
  import opened Primitives
  import opened Player
  import opened TrackSearch
  import Messages
  import Db
  import Controller

  /**
    `get_spotify_from_db`: the session row's token, if the row exists and
    `tokenParses` accepts the token (the token is stored as JSON).
   */
  function LoadCredentials(store: Db.Store, sessionId: Uuid, tokenParses: string -> bool): (r: Result<string, ()>)
    ensures r.Ok? <==> sessionId in store.sessions && tokenParses(store.sessions[sessionId].token)
    ensures r.Ok? ==> r.value == store.sessions[sessionId].token
  {
    match Db.GetSession(store, sessionId)
    case Err(_) => Err(())
    case Ok(session) => if tokenParses(session.token) then Ok(session.token) else Err(())
  }

  /**
    `search`: `reply` is what the Player answers for this query (market from
    the token, limit ten). Any failure collapses to `Err(())`.
   */
  function Search(store: Db.Store, msg: Messages.Search, tokenParses: string -> bool,
                  reply: Result<SearchPage, ClientError>): (r: Result<SearchResult, ()>)
    requires reply.Ok? ==> WithinLimit(reply.value)
    ensures r.Ok? <==> LoadCredentials(store, msg.sessionId, tokenParses).Ok? && reply.Ok?
    ensures r.Ok? ==> r.value.tracks == PageTracks(reply.value)
    ensures r.Ok? ==> |r.value.tracks| <= SearchLimit
  {
    if LoadCredentials(store, msg.sessionId, tokenParses).Err? then Err(())
    else match reply
      case Err(_) => Err(())
      case Ok(page) => Ok(SearchResult(PageTracks(page)))
  }

  /** The Player never returns more hits than asked for. */
  ghost predicate RepliesWithinLimit(replies: seq<Result<SearchPage, ClientError>>) {
    forall i :: 0 <= i < |replies| && replies[i].Ok? ==> WithinLimit(replies[i].value)
  }

  /** `answer` is the reply to `req` when the Player answered `reply`. */
  ghost predicate Answers(store: Db.Store, tokenParses: string -> bool, req: Controller.AgentRequest,
                          reply: Result<SearchPage, ClientError>, answer: Messages.SearchComplete)
  {
    && (reply.Ok? ==> WithinLimit(reply.value))
    && Search(store, req.search, tokenParses, reply) == Ok(answer.result)
    && answer.connectionId == req.search.connectionId
  }

  /**
    `run`: drain the inbox in order; `replies[i]` is the Player's answer to
    the i-th search. A search that fails is dropped; a successful one is
    answered with SearchComplete to the requesting connection. The loop ends
    (with `Ok`) when the channel closes, i.e. at the end of the inbox.
   */
  function Run(store: Db.Store, inbox: seq<Controller.AgentRequest>, tokenParses: string -> bool,
               replies: seq<Result<SearchPage, ClientError>>): (answers: seq<Messages.SearchComplete>)
    requires |replies| == |inbox| && RepliesWithinLimit(replies)
    ensures |answers| <= |inbox|
    ensures forall a :: a in answers ==>
      exists i :: 0 <= i < |inbox| && Answers(store, tokenParses, inbox[i], replies[i], a)
  {
    if |inbox| == 0 then []
    else
      var rest := Run(store, inbox[1..], tokenParses, replies[1..]);
      assert forall a :: a in rest ==>
        exists i :: 0 <= i < |inbox| && Answers(store, tokenParses, inbox[i], replies[i], a)
      by {
        forall a | a in rest
          ensures exists i :: 0 <= i < |inbox| && Answers(store, tokenParses, inbox[i], replies[i], a)
        {
          var j :| 0 <= j < |inbox[1..]| && Answers(store, tokenParses, inbox[1..][j], replies[1..][j], a);
          assert inbox[1..][j] == inbox[j + 1] && replies[1..][j] == replies[j + 1];
        }
      }
      var msg := inbox[0].search;
      match Search(store, msg, tokenParses, replies[0])
      case Ok(result) => [Messages.SearchComplete(result, msg.connectionId)] + rest
      case Err(_) => rest
  }

  /** Processing two batches one after the other answers both, in order. */
  lemma {:induction false} RunAppend(store: Db.Store, a: seq<Controller.AgentRequest>, b: seq<Controller.AgentRequest>,
                                     tokenParses: string -> bool,
                                     ra: seq<Result<SearchPage, ClientError>>, rb: seq<Result<SearchPage, ClientError>>)
    requires |ra| == |a| && |rb| == |b| && RepliesWithinLimit(ra) && RepliesWithinLimit(rb)
    ensures RepliesWithinLimit(ra + rb)
    ensures Run(store, a + b, tokenParses, ra + rb) == Run(store, a, tokenParses, ra) + Run(store, b, tokenParses, rb)
    decreases |a|
  {
    assert RepliesWithinLimit(ra + rb) by {
      forall i | 0 <= i < |ra + rb| && (ra + rb)[i].Ok?
        ensures WithinLimit((ra + rb)[i].value)
      {
        if i < |ra| { assert (ra + rb)[i] == ra[i]; } else { assert (ra + rb)[i] == rb[i - |ra|]; }
      }
    }
    if |a| == 0 {
      assert a + b == b && ra + rb == rb;
    } else {
      assert (a + b)[1..] == a[1..] + b && (ra + rb)[1..] == ra[1..] + rb;
      assert (a + b)[0] == a[0] && (ra + rb)[0] == ra[0];
      RunAppend(store, a[1..], b, tokenParses, ra[1..], rb);
    }
  }

  /** A search that fails sends nothing. */
  lemma FailedSearchIsSilent(store: Db.Store, req: Controller.AgentRequest, tokenParses: string -> bool,
                             reply: Result<SearchPage, ClientError>)
    requires reply.Ok? ==> WithinLimit(reply.value)
    requires LoadCredentials(store, req.search.sessionId, tokenParses).Err? || reply.Err?
    ensures Run(store, [req], tokenParses, [reply]) == []
  {
  }

  /** A search that succeeds is answered exactly once, to the requesting connection. */
  lemma SuccessfulSearchIsAnswered(store: Db.Store, req: Controller.AgentRequest, tokenParses: string -> bool,
                                   page: SearchPage)
    requires WithinLimit(page)
    requires LoadCredentials(store, req.search.sessionId, tokenParses).Ok?
    ensures Run(store, [req], tokenParses, [Ok(page)]) ==
      [Messages.SearchComplete(TrackSearch.SearchResult(PageTracks(page)), req.search.connectionId)]
  {
  }
}

=== FILE: session_state.dfy ===
/**
  The typed wrapper over the cookie session: a key-value map holding the
  session id under `id` and the participant's role under `context_id`.
 */
module SessionState {

  import opened Wrappers
  import opened Primitives

  /** Whether the participant created the session or joined it. */
  datatype Context = Host | Peer

  /** `Display for Context`. */
  function Display(ctx: Context): (s: string)
    ensures ctx == Host <==> s == "host"
    ensures ctx == Peer <==> s == "peer"
  {
    match ctx
    case Host => "host"
    case Peer => "peer"
  }

  const IdKey: string := "id"
  const ContextIdKey: string := "context_id"

  /** A value as stored in the session. */
  datatype Value = UuidValue(id: Uuid) | ContextValue(ctx: Context)

  /** A value that does not deserialize as the requested type. */
  datatype DecodeError = DecodeError

  datatype TypedSession = TypedSession(state: map<string, Value>)

  /**
    `renew`: the session key is rotated (the state is kept) and the id and
    the context are written.
   */
  function Renew(s: TypedSession, id: Uuid, ctx: Context): (r: TypedSession)
    ensures r.state.Keys == s.state.Keys + {IdKey, ContextIdKey}
    ensures forall k :: k in s.state && k != IdKey && k != ContextIdKey ==> r.state[k] == s.state[k]
    ensures GetId(r) == Ok(Some(id)) && GetContext(r) == Ok(Some(ctx))
  {
    TypedSession(s.state[IdKey := UuidValue(id)][ContextIdKey := ContextValue(ctx)])
  }

  function GetId(s: TypedSession): (r: Result<Option<Uuid>, DecodeError>)
    ensures r == Ok(None) <==> IdKey !in s.state
    ensures r.Ok? && r.value.Some? ==> s.state[IdKey] == UuidValue(r.value.value)
    ensures IdKey in s.state && s.state[IdKey].UuidValue? ==> r == Ok(Some(s.state[IdKey].id))
    ensures IdKey in s.state && !s.state[IdKey].UuidValue? ==> r.Err?
  {
    if IdKey !in s.state then Ok(None)
    else match s.state[IdKey]
      case UuidValue(id) => Ok(Some(id))
      case ContextValue(_) => Err(DecodeError)
  }

  function GetContext(s: TypedSession): (r: Result<Option<Context>, DecodeError>)
    ensures r == Ok(None) <==> ContextIdKey !in s.state
    ensures r.Ok? && r.value.Some? ==> s.state[ContextIdKey] == ContextValue(r.value.value)
    ensures ContextIdKey in s.state && s.state[ContextIdKey].ContextValue? ==> r == Ok(Some(s.state[ContextIdKey].ctx))
    ensures ContextIdKey in s.state && !s.state[ContextIdKey].ContextValue? ==> r.Err?
  {
    if ContextIdKey !in s.state then Ok(None)
    else match s.state[ContextIdKey]
      case ContextValue(ctx) => Ok(Some(ctx))
      case UuidValue(_) => Err(DecodeError)
  }

  /** `log_out`: purge the whole session. */
  function LogOut(s: TypedSession): (r: TypedSession)
    ensures r.state.Keys == {}
    ensures GetId(r) == Ok(None) && GetContext(r) == Ok(None)
  {
    TypedSession(map[])
  }

  /** Distinct roles display as distinct strings. */
  lemma DisplayInjective(a: Context, b: Context)
    requires Display(a) == Display(b)
    ensures a == b
  {
  }

  /** The two keys differ, so writing the id never disturbs the context, and back. */
  lemma KeysIndependent(s: TypedSession, id: Uuid, ctx: Context)
    ensures GetContext(TypedSession(s.state[IdKey := UuidValue(id)])) == GetContext(s)
    ensures GetId(TypedSession(s.state[ContextIdKey := ContextValue(ctx)])) == GetId(s)
  {
    assert IdKey != ContextIdKey;
  }
}

=== FILE: track_search.dfy ===
/**
  The projection of a Player search page onto the `TrackInfo` list sent to
  clients (`get_search_results` and `build_artist_string_vec`, which appear
  identically in the session agent and in the HTTP search route).
 */
module TrackSearch {

  import opened Wrappers
  import opened Player

  /** The `limit` every search request passes to the Player. */
  const SearchLimit: nat := 10

  datatype TrackInfo = TrackInfo(name: string, artists: seq<string>, id: string)

  datatype SearchResult = SearchResult(tracks: seq<TrackInfo>)

  /** The page the Player returns honours the requested limit. */
  predicate WithinLimit(page: SearchPage) {
    page.Tracks? ==> |page.items| <= SearchLimit
  }

  /** `names` lists the artists' names, one per artist, in order. */
  ghost predicate NamesOf(artists: seq<SimplifiedArtist>, names: seq<string>) {
    |names| == |artists| && forall i :: 0 <= i < |artists| ==> names[i] == artists[i].name
  }

  function ArtistNames(artists: seq<SimplifiedArtist>): (names: seq<string>)
    ensures NamesOf(artists, names)
  {
    if |artists| == 0 then [] else [artists[0].name] + ArtistNames(artists[1..])
  }

  /** The names of a list of artists are determined by the artists. */
  lemma NamesOfUnique(artists: seq<SimplifiedArtist>, names: seq<string>)
    requires NamesOf(artists, names)
    ensures names == ArtistNames(artists)
  {
  }

  /** The loop of `build_artist_string_vec`. */
  method BuildArtistStringVec(artists: seq<SimplifiedArtist>) returns (names: seq<string>)
    ensures NamesOf(artists, names)
  {
    names := [];
    var i := 0;
    while i < |artists|
      invariant 0 <= i <= |artists|
      invariant NamesOf(artists[..i], names)
    {
      names := names + [artists[i].name];
      i := i + 1;
    }
    assert artists[..i] == artists;
  }

  /** The `TrackInfo` built from a hit that has an id. */
  function Info(item: FullTrack): (t: TrackInfo)
    requires item.id.Some?
    ensures t.name == item.name && t.id == item.id.value.ToString()
    ensures NamesOf(item.artists, t.artists)
  {
    TrackInfo(item.name, ArtistNames(item.artists), item.id.value.ToString())
  }

  /** Hits without an id are skipped; the others become `TrackInfo`s in page order. */
  function Project(items: seq<FullTrack>): (r: seq<TrackInfo>)
    ensures |r| <= |items|
    ensures forall t :: t in r ==> exists k :: 0 <= k < |items| && items[k].id.Some? && t == Info(items[k])
  {
    if |items| == 0 then []
    else if items[0].id.None? then
      var rest := Project(items[1..]);
      FromTail(items, rest);
      rest
    else
      var rest := Project(items[1..]);
      FromTail(items, rest);
      [Info(items[0])] + rest
  }

  /** Tracks built from hits of the tail are built from hits of the whole page. */
  lemma FromTail(items: seq<FullTrack>, rest: seq<TrackInfo>)
    requires |items| > 0
    requires forall t :: t in rest ==> exists k :: 0 <= k < |items[1..]| && items[1..][k].id.Some? && t == Info(items[1..][k])
    ensures forall t :: t in rest ==> exists k :: 0 <= k < |items| && items[k].id.Some? && t == Info(items[k])
  {
    forall t | t in rest ensures exists k :: 0 <= k < |items| && items[k].id.Some? && t == Info(items[k]) {
      var j :| 0 <= j < |items[1..]| && items[1..][j].id.Some? && t == Info(items[1..][j]);
      assert items[j + 1] == items[1..][j];
    }
  }

  /** The tracks a whole search page yields: only a Tracks page contributes. */
  function PageTracks(page: SearchPage): seq<TrackInfo> {
    if page.Tracks? then Project(page.items) else []
  }

  lemma {:induction false} ProjectAppend(a: seq<FullTrack>, b: seq<FullTrack>)
    ensures Project(a + b) == Project(a) + Project(b)
    decreases |a|
  {
    if |a| == 0 {
      assert a + b == b;
    } else {
      assert (a + b)[0] == a[0];
      assert (a + b)[1..] == a[1..] + b;
      ProjectAppend(a[1..], b);
    }
  }

  /** Positions of the hits that carry an id, in increasing order. */
  ghost function KeptIndices(items: seq<FullTrack>): (idx: seq<nat>)
    ensures forall k :: 0 <= k < |idx| ==> idx[k] < |items| && items[idx[k]].id.Some?
    ensures forall k, l :: 0 <= k < l < |idx| ==> idx[k] < idx[l]
    ensures forall i :: 0 <= i < |items| && items[i].id.Some? ==> i in idx
    decreases |items|
  {
    if |items| == 0 then []
    else
      var n := |items| - 1;
      var pre := KeptIndices(items[..n]);
      assert forall k :: 0 <= k < |pre| ==> items[pre[k]] == items[..n][pre[k]];
      assert forall i :: 0 <= i < n ==> items[i] == items[..n][i];
      if items[n].id.Some? then pre + [n] else pre
  }

  /**
    The projection is exactly the hits with an id, in page order: its k-th
    track is built from the k-th such hit, and no hit with an id is missed.
   */
  lemma {:induction false} ProjectKeepsIdentifiedInOrder(items: seq<FullTrack>)
    ensures |Project(items)| == |KeptIndices(items)|
    ensures forall k :: 0 <= k < |Project(items)| ==>
      var idx := KeptIndices(items); Project(items)[k] == Info(items[idx[k]])
    decreases |items|
  {
    if |items| > 0 {
      var n := |items| - 1;
      ProjectKeepsIdentifiedInOrder(items[..n]);
      assert items == items[..n] + [items[n]];
      ProjectAppend(items[..n], [items[n]]);
      assert Project([items[n]]) == (if items[n].id.Some? then [Info(items[n])] else []) + Project([]);
      var pre := KeptIndices(items[..n]);
      forall k | 0 <= k < |pre|
        ensures items[pre[k]] == items[..n][pre[k]]
      {
      }
    }
  }

  /** The loop of `get_search_results`, given the page the Player returned. */
  method GetSearchResults(page: SearchPage) returns (result: SearchResult)
    requires WithinLimit(page)
    ensures result.tracks == PageTracks(page)
    ensures |result.tracks| <= SearchLimit
  {
    var tracks: seq<TrackInfo> := [];
    if page.Tracks? {
      var items := page.items;
      var i := 0;
      while i < |items|
        invariant 0 <= i <= |items|
        invariant tracks == Project(items[..i])
      {
        var item := items[i];
        assert items[..i + 1] == items[..i] + [item];
        ProjectAppend(items[..i], [item]);
        if item.id.None? {
          i := i + 1;
          continue;
        }
        var artists := BuildArtistStringVec(item.artists);
        NamesOfUnique(item.artists, artists);
        assert Project([item]) == [Info(item)] + Project([]);
        tracks := tracks + [TrackInfo(item.name, artists, item.id.value.ToString())];
        i := i + 1;
      }
      assert items[..i] == items;
    }
    result := SearchResult(tracks);
  }
}

=== FILE: wrappers.dfy ===
/** Plain datatypes mirroring Rust's `Option` and `Result`. */
module Wrappers {

  datatype Option<+T> = None | Some(value: T)

  datatype Result<+R, +E> = Ok(value: R) | Err(error: E)
}

=== FILE: ws_connection.dfy ===
/**
  The connection actor of the controller package: control frames and the
  heartbeat come from WsProtocol; Text frames carry a JSON `Request` that is
  turned into a Search or Queue message for the controller.
 */
module WsConnection {

  import opened Wrappers
  import opened Primitives
  import opened Player
  import opened Messages
  import opened WsProtocol

  /** The client's request, tagged by `type` on the wire. */
  datatype Request =
    | SearchRequest(query: string)
    | QueueRequest(uri: string)

  /**
    A frame received at time `now`. `decode` is the JSON decoding of a
    Request and `parseTrackId` is `TrackId::from_str`.
   */
  function Handle(c: Conn, now: Nanos, f: Frame, decode: string -> Option<Request>,
                  parseTrackId: string -> Option<TrackId>): (r: Step)
    ensures f.Text? ==> r.conn == c && Stop !in r.out
    ensures f.Text? && decode(f.text).None? ==> r.out == []
    ensures f.Text? && decode(f.text).Some? && decode(f.text).value.SearchRequest? ==>
      r.out == [ToHub(SearchMsg(Search(decode(f.text).value.query, c.sessionId, c.connectionId)))]
    ensures f.Text? && decode(f.text).Some? && decode(f.text).value.QueueRequest? ==>
      var uri := decode(f.text).value.uri;
      r.out == if parseTrackId(uri).Some? then [ToHub(QueueMsg(Queue(parseTrackId(uri).value, c.sessionId)))] else []
    ensures !f.Text? ==> r == HandleControl(c, now, f)
  {
    match f
    case Text(s) =>
      var out :=
        match decode(s)
        case None => []
        case Some(SearchRequest(query)) => [ToHub(SearchMsg(Search(query, c.sessionId, c.connectionId)))]
        case Some(QueueRequest(uri)) =>
          match parseTrackId(uri)
          case Some(trackId) => [ToHub(QueueMsg(Queue(trackId, c.sessionId)))]
          case None => [];
      Step(c, out)
    case _ => HandleControl(c, now, f)
  }

  /**
    `Handler<WsMessage>`: a push from the controller is serialised (`encode`)
    and sent as a Text frame; if serialisation fails nothing is sent.
   */
  function Push(c: Conn, m: WsMessage, encode: Response -> Option<string>): (out: seq<Effect>)
    ensures encode(m.response).Some? ==> out == [ToClient(Text(encode(m.response).value))]
    ensures encode(m.response).None? ==> out == []
  {
    match encode(m.response)
    case Some(data) => [ToClient(Text(data))]
    case None => []
  }

  /** Every message a connection sends to the controller carries its own ids. */
  lemma HubMessagesCarryOwnIds(c: Conn, now: Nanos, f: Frame, decode: string -> Option<Request>,
                               parseTrackId: string -> Option<TrackId>)
    ensures forall e :: e in Handle(c, now, f, decode, parseTrackId).out && e.ToHub? ==>
      || (e.message.SearchMsg? && e.message.search.sessionId == c.sessionId && e.message.search.connectionId == c.connectionId)
      || (e.message.QueueMsg? && e.message.queue.sessionId == c.sessionId)
  {
  }
}

=== FILE: ws_protocol.dfy ===
/**
  What both WebSocket connection actors share: frames, the liveness
  heartbeat, start-up and shut-down, and the handling of control frames.
  Each handler is a pure step on the connection's state that also returns
  what the actor sends (to the controller or to its client) and whether it
  asks to stop.
 */
module WsProtocol {

  import opened Wrappers
  import opened Primitives
  import opened Messages

  /** How often the heartbeat runs. */
  const HeartbeatInterval: Nanos := 5 * NanosPerSecond

  /** How long a client may stay silent before it is dropped. */
  const ClientTimeout: Nanos := 10 * NanosPerSecond

  /** The payload of every heartbeat ping: the bytes of "PING". */
  const PingPayload: seq<Byte> := [80, 73, 78, 71]

  datatype CloseReason = CloseReason(code: nat, description: Option<string>)

  /** A WebSocket frame, in either direction. */
  datatype Frame =
    | Ping(payload: seq<Byte>)
    | Pong(payload: seq<Byte>)
    | Binary(bytes: seq<Byte>)
    | Close(reason: Option<CloseReason>)
    | Continuation(fragment: seq<Byte>)
    | Nop
    | Text(text: string)

  /** What a handler does besides updating the state. */
  datatype Effect =
    | ToHub(message: HubMessage)
    | ToClient(frame: Frame)
    | Stop

  /** A connection actor: its ids, its own mailbox, and when the client was last heard. */
  datatype Conn = Conn(sessionId: Uuid, connectionId: Uuid, addr: Recipient, lastHeartbeat: Nanos)

  datatype Step = Step(conn: Conn, out: seq<Effect>)

  /** `WsConnection::new`: the connection id is freshly generated by the caller. */
  function New(sessionId: Uuid, connectionId: Uuid, addr: Recipient, now: Nanos): (c: Conn)
    ensures c.sessionId == sessionId && c.connectionId == connectionId && c.addr == addr
    ensures c.lastHeartbeat == now
    ensures !TimedOut(c, now)
  {
    Conn(sessionId, connectionId, addr, now)
  }

  /** The Disconnect a connection sends about itself. */
  function OwnDisconnect(c: Conn): HubMessage {
    DisconnectMsg(Disconnect(c.sessionId, c.connectionId))
  }

  /** The client has been silent for strictly longer than the timeout. */
  predicate TimedOut(c: Conn, now: Nanos) {
    DurationSince(now, c.lastHeartbeat) > ClientTimeout
  }

  /** One heartbeat tick: drop a silent client, otherwise ping it. */
  function Heartbeat(c: Conn, now: Nanos): (r: Step)
    ensures r.conn == c
    ensures c.lastHeartbeat + ClientTimeout < now ==> r.out == [ToHub(OwnDisconnect(c)), Stop]
    ensures now <= c.lastHeartbeat + ClientTimeout ==> r.out == [ToClient(Ping(PingPayload))]
  {
    if TimedOut(c, now) then Step(c, [ToHub(OwnDisconnect(c)), Stop])
    else Step(c, [ToClient(Ping(PingPayload))])
  }

  /**
    `started`: announce the connection to the controller; `delivered` tells
    whether the controller accepted the message, and the actor stops if not.
   */
  function Started(c: Conn, delivered: bool): (out: seq<Effect>)
    ensures |out| == (if delivered then 1 else 2)
    ensures out[0] == ToHub(ConnectMsg(Connect(c.addr, c.sessionId, c.connectionId)))
    ensures !delivered ==> out[1] == Stop
    ensures Stop in out <==> !delivered
  {
    [ToHub(ConnectMsg(Connect(c.addr, c.sessionId, c.connectionId)))] + (if delivered then [] else [Stop])
  }

  /** `stopping`: however the actor stops, it tells the controller it left. */
  function Stopping(c: Conn): (out: seq<Effect>)
    ensures |out| == 1 && Stop !in out
    ensures forall e :: e in out ==>
      && e.ToHub? && e.message.DisconnectMsg?
      && e.message.disconnect.sessionId == c.sessionId
      && e.message.disconnect.connectionId == c.connectionId
  {
    [ToHub(OwnDisconnect(c))]
  }

  /**
    A frame other than Text, received from the client at time `now`: pings
    and pongs prove liveness, binary data is echoed, Close and Continuation
    end the connection.
   */
  function HandleControl(c: Conn, now: Nanos, f: Frame): (r: Step)
    requires !f.Text?
    ensures f.Ping? || f.Pong? ==> r.conn == c.(lastHeartbeat := now) && !TimedOut(r.conn, now)
    ensures !(f.Ping? || f.Pong?) ==> r.conn == c
    ensures f.Ping? ==> r.out == [ToClient(Pong(f.payload))]
    ensures f.Pong? || f.Nop? ==> r.out == []
    ensures f.Binary? ==> r.out == [ToClient(f)]
    ensures f.Close? ==> r.out == [ToClient(f), Stop]
    ensures f.Continuation? ==> r.out == [Stop]
    ensures Stop in r.out <==> f.Close? || f.Continuation?
    ensures forall e :: e in r.out ==> !e.ToHub?
  {
    match f
    case Ping(p) => Step(c.(lastHeartbeat := now), [ToClient(Pong(p))])
    case Pong(_) => Step(c.(lastHeartbeat := now), [])
    case Binary(b) => Step(c, [ToClient(Binary(b))])
    case Close(reason) => Step(c, [ToClient(Close(reason)), Stop])
    case Continuation(_) => Step(c, [Stop])
    case Nop => Step(c, [])
  }

  /** Exactly at the timeout the client is still alive: the comparison is strict. */
  lemma TimeoutBoundary(c: Conn)
    ensures Heartbeat(c, c.lastHeartbeat + ClientTimeout).out == [ToClient(Ping(PingPayload))]
    ensures Heartbeat(c, c.lastHeartbeat + ClientTimeout + 1).out == [ToHub(OwnDisconnect(c)), Stop]
  {
  }

  /** A client may miss one ping: two heartbeat intervals of silence are tolerated. */
  lemma OneMissedPingTolerated(c: Conn, now: Nanos)
    requires now <= c.lastHeartbeat + 2 * HeartbeatInterval
    ensures Stop !in Heartbeat(c, now).out
  {
  }

  /** A client that answers pings within the timeout is never dropped. */
  lemma PongKeepsAlive(c: Conn, heard: Nanos, now: Nanos, payload: seq<Byte>)
    requires heard <= now <= heard + ClientTimeout
    ensures Stop !in Heartbeat(HandleControl(c, heard, Pong(payload)).conn, now).out
  {
  }
}
